=== FILE: README.md ===
# ColourNTP clock colours in Dafny

A model of the pure logic of ColourNTP's new-tab page, `js/colours.js`.
Once a second the page reads the clock and shows the time as "HH : MM : SS". On a
12-hour clock it adds an AM/PM postfix. It also paints the page in a colour
taken from that second. There are four colouring strategies:

- "what colour is it?": the displayed digits read as a hex colour, so 14:05:09 is `#140509`;
- full spectrum: a linear map from the second of the day onto `#000000..#ffffff`;
- full spectrum hue: a walk around the HSL hue circle;
- solid: a fixed colour, so nothing is computed per second.

Besides the clock, the model covers three helpers from the same file. The first
toggles the side panels and persists the choice. The second picks a
128-pixel app icon. The third filters and sorts the apps list.

Modules:

- `Options`: `Option`, used for JavaScript's `NaN`, `undefined` and "nothing written".
- `Radix`: digit strings as `Number.prototype.toString(radix)` writes them,
  `parseInt(s, 10)`, `slice(-k)`, `slice(1)`, and the arithmetic facts about them.
- `Clock`: the hour wrap, the two-digit padding, the clock text and the postfix.
- `Colours`: `secondToHexColour` and `rgbToHex`, over exact integers.
- `Tick`: the configuration flags resolved to a closed `Mode`, and
  `ComputeColour`, the one colour function. `CascadeColour` writes the
  source's assign-then-overwrite branches out as they are, and its contract
  proves them equal to the `Mode` match. `DoTime` gives one whole tick.
- `Panels`: `togglePanel` and the restore on page load.
- `Apps`: `find128Image`, the app filter and the name comparator, with an
  insertion sort standing in for the library sort.

Modelling choices:

- The linear colour is `floor(s * 0xFFFFFF / 86399)` in exact integers. The
  source computes it in doubles, but `Colours.SpectrumExactOnlyAtEnds` shows
  that 86399 and 0xFFFFFF are coprime. So the exact quotient is a whole number
  only at the two end points. Everywhere else it is at least 1/86399 from an
  integer, which is far more than the rounding error, so truncating the
  double gives the same floor.
- The seconds of the day are re-read with `parseInt` from the padded,
  displayed fields, as the source does. On a 12-hour clock 02:05:09 and
  14:05:09 therefore get the same colour in every mode
  (`Tick.TwelveHourColoursAlias`). This is kept as written.
- Clamping: the code does not clamp colour values. On the clock's own inputs
  no clamping is needed: `Colours.SecondToHexColour` proves the value stays
  at most 0xFFFFFF.
- The `| 0` in `secondToHexColour` truncates toward zero, which is the floor
  on these non-negative values; it never wraps, because they stay below 2^31.
  In `rgbToHex` it is the identity on integer channels. It is therefore not
  modelled as a 32-bit wrap.

## Model

| member | source | states |
|---|---|---|
| Clock.DisplayHour | js/colours.js:32-41 | on a 24-hour clock the hour is unchanged; on a 12-hour clock the shown hour lies in 1..12 and agrees with the 24-hour hour modulo 12 |
| Clock.TwelveHourWrap | js/colours.js:33-41 | on a 12-hour clock 0 shows as 12, 12 stays 12, an hour above 12 shows 12 less, other hours are unchanged, and the face's PM flag is set exactly for hours 12..23 although the hour shown is at most 12 |
| Clock.PadTwo | js/colours.js:43-45 | every padded field has at least two decimal digits; a value below 100 becomes exactly two digits that read back as the value |
| Clock.Display | js/colours.js:28-45 | for a valid reading the three fields are two decimal digits each, and they read back as the displayed hour, the minutes and the seconds; isPM holds exactly when the 24-hour hour is at least 12 |
| Clock.Postfix | js/colours.js:83-85 | no postfix on a 24-hour clock; otherwise "PM" exactly when the reading is in the afternoon, and "AM" otherwise |
| Clock.ClockTextFields | js/colours.js:81 | the clock text has 12 characters, " : " at positions 2 and 7, and three pairs of decimal digits that parse back to the displayed hour, minutes and seconds |
| Clock.FaceSecondsReadsDisplay | js/colours.js:52 | re-parsing the padded fields gives exactly the displayed hour*3600 + minutes*60 + seconds |
| Clock.DisplaySecondsBounds | js/colours.js:48-59 | the re-parsed seconds are at most 86399, and at most 46799 on a 12-hour clock |
| Clock.TwelveHourAliases | js/colours.js:33-45 | on a 12-hour clock a morning reading and the one 12 hours later show the same text and re-parse to the same seconds; only the postfix tells AM from PM |
| Radix.ToBase | js/colours.js:100 | `toString(radix)` gives a non-empty digit string in the radix, with no leading zero for a positive number, and exactly "0" for zero |
| Radix.ValueOfToBase | js/colours.js:100 | reading back the digits `toString(radix)` wrote gives the number again |
| Radix.ParseInt | js/colours.js:52 | `parseInt` is NaN exactly when the string does not start with a decimal digit, and is the string's decimal value when it is all digits |
| Radix.SliceLast | js/colours.js:100 | `slice(-k)` keeps the last k characters, or the whole string when it is shorter |
| Radix.SliceFrom1 | js/colours.js:145 | `slice(1)` drops exactly the first character |
| Radix.PadToWidth | js/colours.js:100 | prefixing w-1 zeros and keeping the last w characters writes every number below radix^w in exactly w digits that read back as the number |
| Colours.SecondToHexColour | js/colours.js:99-101 | for every second of the day the result is '#' and six lower-case hex digits, whose value is floor(s*0xFFFFFF/86399) and at most 0xFFFFFF |
| Colours.SecondToHexColourBlack | js/colours.js:93-94 | second 0, midnight, gives "#000000" |
| Colours.SecondToHexColourWhite | js/colours.js:93-94 | second 86399, 23:59:59, gives "#ffffff" |
| Colours.SixHexDigits | js/colours.js:100 | `('00000' + v.toString(16)).slice(-6)` writes any value up to 0xFFFFFF in exactly six hex digits that read back as the value |
| Colours.SecondToHexColourMonotone | js/colours.js:100 | a later second never gets a smaller colour value |
| Colours.SpectrumExactOnlyAtEnds | js/colours.js:100 | strictly between the end points, s*0xFFFFFF is never a multiple of 86399, so the integer floor is what the double computation truncates to |
| Colours.RgbToHex | js/colours.js:144-146 | for channels in 0..255 the result is '#' and six lower-case hex digits; the three digit pairs decode to r, g and b, and the whole to r*65536 + g*256 + b |
| Colours.RgbDigits | js/colours.js:145 | adding 1<<24 makes the hex string exactly seven digits, so dropping the first leaves six whose pairs decode to r, g and b |
| Tick.ModeOf | js/colours.js:48-59 | solid mode holds exactly when time_solid is set; otherwise hue is chosen exactly when time_full_hue is set, linear exactly when only time_full is set, and literal when neither is |
| Tick.HueColour | js/colours.js:153-156 | the hue colour is a well-formed colour whose digit pairs decode to the hue channels of the second |
| Tick.LiteralColourDigits | js/colours.js:49 | the literal colour is '#' and six decimal digits, pairs that parse back to the displayed hour, minutes and seconds |
| Tick.ReparsedSeconds | js/colours.js:52-57 | the seconds the colour code uses equal the displayed hour*3600 + minutes*60 + seconds, at most 86399, and at most 46799 on a 12-hour clock |
| Tick.ComputeColour | js/colours.js:47-59 | no colour in solid mode and a well-formed colour otherwise: the displayed digits in literal mode, floor(displayed seconds*0xFFFFFF/86399) in linear mode, and the hue colour of the displayed seconds in hue mode |
| Tick.CascadeColour | js/colours.js:48-59 | the source's overwrite sequence (literal, then linear if time_full, then hue if time_full_hue, nothing if time_solid) gives the colour of the mode the flags select |
| Tick.ClockTextSlices | js/colours.js:49-81 | the clock text carries the hour, minute and second fields at offsets 0, 5 and 10, and the literal colour is '#' followed by exactly those three slices |
| Tick.DoTime | js/colours.js:27-85 | one tick yields a colour exactly when not in solid mode; it pushes to history exactly when not solid and history is on, and pushes the colour shown; the postfix is "PM" from 12:00 and "AM" before on a 12-hour clock, and absent on a 24-hour one; the text is three pairs of decimal digits reading as the displayed hour, minutes and seconds, separated by " : "; the colour is '#' and the text's digits in literal mode, floor(displayed seconds*0xFFFFFF/86399) in linear mode, and the hue colour of the displayed seconds in hue mode |
| Tick.HueWins | js/colours.js:51-59 | with time_full_hue set and solid off, the hue colour is shown and time_full makes no difference |
| Tick.ExampleFaces | js/colours.js:43-45 | 14:05:09 shows as "14","05","09" on a 24-hour clock and "02","05","09" on a 12-hour clock |
| Tick.LiteralExample | js/colours.js:49 | 14:05:09 gives "#140509" on a 24-hour clock and "#020509" with text "02 : 05 : 09" and postfix "PM" on a 12-hour clock, with nothing pushed when history is off |
| Tick.TwelveHourColoursAlias | js/colours.js:52-58 | on a 12-hour clock a morning second and the second 12 hours later get the same colour in every mode |
| Panels.TogglePanel | js/colours.js:187-203 | id -1 changes and saves nothing; toggling the shown panel hides all and saves -1; toggling another id shows exactly that panel; every save records the panel now shown |
| Panels.Restore | js/colours.js:205-206 | on load the stored id becomes the shown panel; a stored -1 saves nothing, and any other stored id is saved again unchanged |
| Panels.ToggleTwiceHides | js/colours.js:187-203 | toggling the same id twice, starting with that panel not shown, ends with no panel and -1 saved |
| Panels.RestoreAfterToggle | js/colours.js:202-206 | the value a toggle saves brings back the same panel after a reload |
| Apps.Find128Image | js/colours.js:311-319 | the result is the url of the first 128-pixel icon; it is "/noicon.png" when no icon is 128 pixels; any other result comes from a first 128-pixel icon |
| Apps.FirstOf128Exists | js/colours.js:312-316 | if any icon is 128 pixels, a first such icon exists |
| Apps.ListedApps | js/colours.js:271-273 | the filter keeps each enabled item with `isApp` set that is not an extension or theme, as many times as it occurs, and drops everything else |
| Apps.CompareNamesConsistent | js/colours.js:276-280 | the name comparator is antisymmetric, returns 0 exactly on equal names, and is transitive |
| Apps.SortByName | js/colours.js:276-280 | sorting gives a permutation of its input ordered by name |
| Apps.AppList | js/colours.js:270-280 | the apps panel lists exactly the listed apps, with their multiplicities, ordered by name |

## Left out

- `hslToRgb` and the floating point of `secondToHueColour` (js/colours.js:115-138, 153-156): real-number rounding is outside the model. `ComputeColour` takes, as a function parameter `HueChannels`, the integer channels `rgbToHex` ends up packing: r and g truncated by `<<`, b rounded into the double sum and then truncated by `| 0`. The documented noon value `#00feff` is a rounding artefact and is not stated.
- `FixedStack`: its definition is not part of this model. `DoTime` records the colour pushed each tick, but not the ring buffer's contents or the `get(i) || "Hold on..."` rendering.
- `Date` sampling and the `setTimeout` loop: the reading is a parameter, and each tick is one call of `DoTime`.
- DOM writes (`innerHTML`, styles, class lists, the text-shadow `full` class at lines 9-11, click handlers, `prompt`): rendering is not modelled.
- `getConfig`, `chrome.storage`, `chrome.topSites`, `chrome.sessions` and `chrome.management`: configuration arrives as `Tick.Config`, and storage writes are the `saved` field of `Panels.Toggled`. The solid colour itself (lines 14-18) is read from storage and never computed.
- The 'time_normal' option: it is read but never used.
- The visited and recently-closed lists (js/colours.js:214-261): DOM built from platform data.
- Radix.ParseInt: only strings that start with their digits are modelled. `parseInt`'s skipping of leading blanks and signs is left out, because the page only parses padded digit fields.
- Colours.SecondToHexColour: defined only for seconds of the day, 0..86399. Outside that range the double rounding and the `| 0` wrap would need modelling, and the page never passes such values.
- Colours.RgbToHex: channels are integers in 0..255. Fractional or out-of-range channels are not modelled: there `<<` truncates r and g, while b is first rounded into the double sum (a blue just below an integer can round up) and then truncated by `| 0`.
- Apps.Find128Image: icon sizes are integers, compared to 128 as the loose `== '128'` does. A missing `icons` list is the empty sequence. "/noicon.png" also comes back when the first 128-pixel icon's own url is "/noicon.png".
- Apps.ListedApps: states which apps are kept and how often, but not that the filter keeps their relative order. That order shows only through the stability of the sort, which is not stated either.
- Apps.AppList: the order of equally named apps is not stated, and names compare by code point rather than by UTF-16 code unit; both gaps come from Apps.ListedApps and Apps.SortByName.
- Apps.SortByName: it states a sorted permutation but not stability. Names are compared by Unicode code point, whereas JavaScript compares UTF-16 code units. The two orders differ only between characters above U+FFFF and those in U+E000..U+FFFF.
- Panels.TogglePanel: ids are integers. A missing stored value on first load (`undefined`, which adds a `panel-undefined` class) is not modelled. The page is taken to start with no panel shown.

=== FILE: apps.dfy ===
/** The apps panel of the new-tab page (js/colours.js): which installed items
    are listed, in which order, and which icon each one shows. */
module Apps {

  /** One entry of an app's `icons` list; the size is the icon's width in pixels. */
  datatype Icon = Icon(size: int, url: string)

  /** The fields of an installed item the page reads; `kind` is its `type`. */
  datatype App = App(id: string, name: string, enabled: bool, kind: string, isApp: bool, icons: seq<Icon>)

  const NoIcon: string := "/noicon.png"

  predicate Is128(i: Icon) {
    i.size == 128
  }

  /** `k` is the position of the first 128-pixel icon. */
  predicate FirstOf128(icons: seq<Icon>, k: int) {
    0 <= k < |icons| && Is128(icons[k]) && forall j :: 0 <= j < k ==> !Is128(icons[j])
  }

  /** `find128Image`: the url of the first 128-pixel icon, or the
      placeholder when there is none. */
  method Find128Image(icons: seq<Icon>) returns (url: string)
    ensures forall k :: FirstOf128(icons, k) ==> url == icons[k].url
    ensures (forall k :: 0 <= k < |icons| ==> !Is128(icons[k])) ==> url == NoIcon
    ensures url != NoIcon ==> exists k :: FirstOf128(icons, k)
  {
    var i := 0;
    while i < |icons|
      invariant 0 <= i <= |icons|
      invariant forall j :: 0 <= j < i ==> !Is128(icons[j])
    {
      if Is128(icons[i]) {
        assert FirstOf128(icons, i);
        return icons[i].url;
      }
      i := i + 1;
    }
    return NoIcon;
  }

  /** Whenever some icon is 128 pixels wide, a first one exists, so
      `Find128Image` returns its url. */
  lemma {:induction false} FirstOf128Exists(icons: seq<Icon>, k: int)
    requires 0 <= k < |icons| && Is128(icons[k])
    ensures exists f :: FirstOf128(icons, f)
    decreases k
  {
    if FirstOf128(icons, k) {
    } else {
      var j :| 0 <= j < k && Is128(icons[j]);
      FirstOf128Exists(icons, j);
    }
  }

  /** Only enabled items whose `isApp` is set are listed, and never an
      extension or a theme. */
  predicate IsListed(a: App) {
    a.enabled && a.kind != "extension" && a.kind != "theme" && a.isApp
  }

  /** `list.filter(...)`: the listed apps, each as often as in the list. */
  function ListedApps(list: seq<App>): (r: seq<App>)
    ensures forall a :: multiset(r)[a] == if IsListed(a) then multiset(list)[a] else 0
  {
    if |list| == 0 then []
    else
      assert list == [list[0]] + list[1..];
      (if IsListed(list[0]) then [list[0]] else []) + ListedApps(list[1..])
  }

  /** JavaScript's `<` on strings: the first differing character decides,
      and a proper prefix comes first. */
  predicate Before(x: string, y: string)
    decreases |x|
  {
    |y| > 0 && (|x| == 0 || x[0] < y[0] || (x[0] == y[0] && Before(x[1..], y[1..])))
  }

  /** The comparator handed to `list.sort`. */
  function CompareNames(a: App, b: App): int {
    if Before(a.name, b.name) then -1 else if Before(b.name, a.name) then 1 else 0
  }

  /** `a` may precede `b` in the sorted list. */
  predicate NameLe(a: App, b: App) {
    !Before(b.name, a.name)
  }

  predicate SortedByName(s: seq<App>) {
    forall i, j :: 0 <= i < j < |s| ==> NameLe(s[i], s[j])
  }

  lemma {:induction false} BeforeIrreflexive(x: string)
    ensures !Before(x, x)
    decreases |x|
  {
    if |x| > 0 {
      BeforeIrreflexive(x[1..]);
    }
  }

  lemma {:induction false} BeforeTotal(x: string, y: string)
    ensures x == y || Before(x, y) || Before(y, x)
    decreases |x|
  {
    if |x| > 0 && |y| > 0 && x[0] == y[0] {
      BeforeTotal(x[1..], y[1..]);
      if x[1..] == y[1..] {
        assert x == [x[0]] + x[1..] && y == [y[0]] + y[1..];
      }
    }
  }

  lemma {:induction false} BeforeTransitive(x: string, y: string, z: string)
    requires Before(x, y) && Before(y, z)
    ensures Before(x, z)
    decreases |x|
  {
    if |x| > 0 && x[0] == y[0] && y[0] == z[0] {
      BeforeTransitive(x[1..], y[1..], z[1..]);
    }
  }

  lemma BeforeAsymmetric(x: string, y: string)
    requires Before(x, y)
    ensures !Before(y, x)
  {
    if Before(y, x) {
      BeforeTransitive(x, y, x);
      BeforeIrreflexive(x);
    }
  }

  /** The comparator is a consistent three-way comparison: antisymmetric, 0
      exactly on equal names, and transitive, as `sort` requires. */
  lemma CompareNamesConsistent(a: App, b: App, c: App)
    ensures CompareNames(a, b) == -CompareNames(b, a)
    ensures CompareNames(a, b) == 0 <==> a.name == b.name
    ensures CompareNames(a, b) < 0 && CompareNames(b, c) < 0 ==> CompareNames(a, c) < 0
  {
    BeforeIrreflexive(a.name);
    BeforeTotal(a.name, b.name);
    if Before(a.name, b.name) {
      BeforeAsymmetric(a.name, b.name);
      if Before(b.name, c.name) {
        BeforeTransitive(a.name, b.name, c.name);
      }
    }
  }

  lemma NameLeTransitive(a: App, b: App, c: App)
    requires NameLe(a, b) && NameLe(b, c)
    ensures NameLe(a, c)
  {
    BeforeTotal(a.name, b.name);
    if Before(c.name, a.name) && Before(a.name, b.name) {
      BeforeTransitive(c.name, a.name, b.name);
    }
  }

  /** Inserting into a list sorted by name keeps it sorted. */
  function Insert(x: App, s: seq<App>): (r: seq<App>)
    requires SortedByName(s)
    ensures SortedByName(r)
    ensures multiset(r) == multiset(s) + multiset{x}
  {
    if |s| == 0 then [x]
    else if NameLe(x, s[0]) then
      InsertFront(x, s);
      [x] + s
    else
      var rest := Insert(x, s[1..]);
      assert s == [s[0]] + s[1..];
      InsertBehind(x, s, rest);
      [s[0]] + rest
  }

  lemma InsertFront(x: App, s: seq<App>)
    requires SortedByName(s) && |s| > 0 && NameLe(x, s[0])
    ensures SortedByName([x] + s)
  {
    forall j | 0 <= j < |s|
      ensures NameLe(x, s[j])
    {
      if j > 0 {
        NameLeTransitive(x, s[0], s[j]);
      }
    }
  }

  lemma InsertBehind(x: App, s: seq<App>, rest: seq<App>)
    requires SortedByName(s) && |s| > 0 && !NameLe(x, s[0])
    requires SortedByName(rest) && multiset(rest) == multiset(s[1..]) + multiset{x}
    ensures SortedByName([s[0]] + rest)
  {
    BeforeAsymmetric(s[0].name, x.name);
    forall j | 0 <= j < |rest|
      ensures NameLe(s[0], rest[j])
    {
      assert rest[j] in multiset(rest);
      if rest[j] != x {
        assert rest[j] in multiset(s[1..]);
        var k :| 1 <= k < |s| && s[k] == rest[j];
      }
    }
  }

  /** `list.sort(...)` with the name comparator: the same apps, ordered by name. */
  function SortByName(s: seq<App>): (r: seq<App>)
    ensures SortedByName(r)
    ensures multiset(r) == multiset(s)
  {
    if |s| == 0 then []
    else
      assert s == [s[0]] + s[1..];
      Insert(s[0], SortByName(s[1..]))
  }

  /** The apps panel's list: exactly the listed apps, each as often as it
      was installed, sorted by name. */
  function AppList(list: seq<App>): (r: seq<App>)
    ensures SortedByName(r)
    ensures forall a :: multiset(r)[a] == if IsListed(a) then multiset(list)[a] else 0
  {
    SortByName(ListedApps(list))
  }
}

=== FILE: clock.dfy ===
/** The clock face of the new-tab page: how one reading of the local clock
    becomes the displayed hour, the two-digit fields, the "HH : MM : SS"
    text and the AM/PM postfix (js/colours.js, the first half of `doTime`). */
module Clock {
  import opened Options
  import opened Radix

  /** One reading of `Date`: `getHours()`, `getMinutes()`, `getSeconds()`. */
  datatype TimeOfDay = TimeOfDay(hours: nat, mins: nat, secs: nat)

  /** The ranges `Date` produces. */
  predicate Valid(t: TimeOfDay) {
    t.hours < 24 && t.mins < 60 && t.secs < 60
  }

  /** The last second of a day, 23:59:59; the linear colour map sends it to
      white. */
  const LastSecond: nat := 24 * 60 * 60 - 1

  /** The afternoon flag, taken from the 24-hour reading before any wrap. */
  predicate IsPM(hours: nat) {
    hours >= 12
  }

  /** The hour shown: unchanged on a 24-hour clock; on a 12-hour clock
      reduced by 12 in the afternoon and read as 12 instead of 0. */
  function DisplayHour(hours: nat, twentyFour: bool): (h: nat)
    ensures twentyFour ==> h == hours
    ensures !twentyFour && hours < 24 ==> 1 <= h <= 12 && h % 12 == hours % 12
  {
    if twentyFour then hours
    else
      var h := if IsPM(hours) then hours - 12 else hours;
      if h == 0 then 12 else h
  }

  /** A field as the page writes it: a leading '0' below ten, otherwise the
      number's own decimal digits. */
  function PadTwo(n: nat): (s: string)
    ensures |s| >= 2 && AllDigits(s, 10)
    ensures n < 100 ==> |s| == 2 && ValueOf(s, 10) == n
  {
    var d := ToBase(n, 10);
    ValueOfToBase(n, 10);
    if n < 10 then
      ToBaseAtMost(n, 10, 1);
      ValueOfZerosPrefix(1, d, 10);
      assert Zeros(1) == "0";
      "0" + d
    else
      assert Pow(10, 1) == 10 && Pow(10, 2) == 100;
      ToBaseAtLeast(n, 10, 2);
      if n < 100 then ToBaseAtMost(n, 10, 2); d else d
  }

  /** The three strings `doTime` has after padding, plus the two flags the
      postfix needs. */
  datatype Face = Face(hh: string, mm: string, ss: string, isPM: bool, twentyFour: bool)

  function Display(t: TimeOfDay, twentyFour: bool): (f: Face)
    ensures f.isPM <==> t.hours >= 12
    ensures f.twentyFour == twentyFour
    ensures Valid(t) ==>
      && |f.hh| == 2 && |f.mm| == 2 && |f.ss| == 2
      && AllDigits(f.hh, 10) && AllDigits(f.mm, 10) && AllDigits(f.ss, 10)
      && ValueOf(f.hh, 10) == DisplayHour(t.hours, twentyFour)
      && ValueOf(f.mm, 10) == t.mins
      && ValueOf(f.ss, 10) == t.secs
  {
    Face(PadTwo(DisplayHour(t.hours, twentyFour)), PadTwo(t.mins), PadTwo(t.secs),
         IsPM(t.hours), twentyFour)
  }

  /** The text written into the clock element. */
  function ClockText(f: Face): string {
    f.hh + " : " + f.mm + " : " + f.ss
  }

  /** The `time-postfix` attribute: only set on a 12-hour clock. */
  function Postfix(f: Face): (p: Option<string>)
    ensures p.None? <==> f.twentyFour
    ensures p.Some? ==> (p.value == "PM" <==> f.isPM) && (p.value == "AM" <==> !f.isPM)
  {
    if f.twentyFour then None else Some(if f.isPM then "PM" else "AM")
  }

  /** Seconds since midnight as the page re-reads them with `parseInt` from the
      padded (and possibly wrapped) fields; None when a field does not start
      with a digit, which `Display` never produces. */
  function FaceSeconds(f: Face): (r: Option<nat>)
  {
    match (ParseInt(f.hh), ParseInt(f.mm), ParseInt(f.ss))
    case (Some(h), Some(m), Some(s)) => Some(h * 3600 + m * 60 + s)
    case _ => None
  }

  /** Seconds since midnight of the displayed hour, minutes and seconds. */
  function DisplaySeconds(t: TimeOfDay, twentyFour: bool): nat {
    DisplayHour(t.hours, twentyFour) * 3600 + t.mins * 60 + t.secs
  }

  // ---------------------------------------------------------------------
  // Properties

  /** On a 12-hour clock 0 reads as 12, 12 stays 12 and afternoon hours lose
      12; the face's PM flag still comes from the 24-hour reading, so it is
      set exactly in the afternoon even though the shown hour is at most 12. */
  lemma TwelveHourWrap(hours: nat)
    requires hours < 24
    ensures var h := DisplayHour(hours, false);
      && (hours == 0 ==> h == 12)
      && (hours == 12 ==> h == 12)
      && (hours > 12 ==> h == hours - 12)
      && (1 <= hours < 12 ==> h == hours)
    ensures var f := Display(TimeOfDay(hours, 0, 0), false);
      && (f.isPM <==> hours >= 12)
      && ValueOf(f.hh, 10) == DisplayHour(hours, false) <= 12
  {
  }

  /** The re-parse in the colour code reads back exactly the displayed values. */
  lemma {:induction false} FaceSecondsReadsDisplay(t: TimeOfDay, twentyFour: bool)
    requires Valid(t)
    ensures FaceSeconds(Display(t, twentyFour)) == Some(DisplaySeconds(t, twentyFour))
  {
    var f := Display(t, twentyFour);
    assert ParseInt(f.hh) == Some(DisplayHour(t.hours, twentyFour));
    assert ParseInt(f.mm) == Some(t.mins);
    assert ParseInt(f.ss) == Some(t.secs);
  }

  /** A valid reading is at most 23:59:59, and at most 12:59:59 once wrapped to
      a 12-hour clock. */
  lemma DisplaySecondsBounds(t: TimeOfDay, twentyFour: bool)
    requires Valid(t)
    ensures DisplaySeconds(t, twentyFour) <= LastSecond
    ensures !twentyFour ==> DisplaySeconds(t, twentyFour) <= 46799
  {
  }

  /** The clock text is "HH : MM : SS": twelve characters whose three digit
      pairs read back as the displayed hour, the minutes and the seconds. */
  lemma {:induction false} ClockTextFields(t: TimeOfDay, twentyFour: bool)
    requires Valid(t)
    ensures var text := ClockText(Display(t, twentyFour));
      && |text| == 12
      && text[2..5] == " : " && text[7..10] == " : "
      && AllDigits(text[0..2], 10) && AllDigits(text[5..7], 10) && AllDigits(text[10..12], 10)
      && ParseInt(text[0..2]) == Some(DisplayHour(t.hours, twentyFour))
      && ParseInt(text[5..7]) == Some(t.mins)
      && ParseInt(text[10..12]) == Some(t.secs)
  {
    var f := Display(t, twentyFour);
    var text := ClockText(f);
    assert text[0..2] == f.hh;
    assert text[2..5] == " : ";
    assert text[5..7] == f.mm;
    assert text[7..10] == " : ";
    assert text[10..12] == f.ss;
  }

  /** In a 12-hour display a morning reading and the reading twelve hours
      later show the same text and differ only in the postfix. */
  lemma TwelveHourAliases(t: TimeOfDay)
    requires Valid(t) && t.hours < 12
    ensures var later := TimeOfDay(t.hours + 12, t.mins, t.secs);
      && ClockText(Display(t, false)) == ClockText(Display(later, false))
      && FaceSeconds(Display(t, false)) == FaceSeconds(Display(later, false))
      && Postfix(Display(t, false)) == Some("AM")
      && Postfix(Display(later, false)) == Some("PM")
  {
  }
}

=== FILE: colours.dfy ===
/** The two hex-colour encoders of js/colours.js: `secondToHexColour`, the
    linear "full spectrum" map from a second of the day onto 0x000000..0xffffff,
    and `rgbToHex`, which packs three 8-bit channels. */
module Colours {
  import opened Radix
  import opened Clock

  /** A colour as the page exchanges it: '#' and six lower-case hex digits. */
  predicate IsColour(c: string) {
    |c| == 7 && c[0] == '#' && AllDigits(c[1..], 16)
  }

  /** The 24-bit number a colour's six digits denote. */
  function ColourValue(c: string): nat
    requires IsColour(c)
  {
    ValueOf(c[1..], 16)
  }

  type Byte = x: int | 0 <= x < 256

  /** `secondToHexColour`: the second scaled linearly onto 0..0xFFFFFF and
      rounded down, written in hex and left-padded to six digits through
      `('00000' + hex).slice(-6)`. The `| 0` in the source truncates toward
      zero, which is the floor on these non-negative values; it never wraps,
      because they stay below 2^31. */
  function SecondToHexColour(s: nat): (c: string)
    requires s <= LastSecond
    ensures IsColour(c)
    ensures ColourValue(c) == s * 0xFFFFFF / LastSecond <= 0xFFFFFF
  {
    var v := s * 0xFFFFFF / LastSecond;
    SpectrumBelowWhite(s);
    SixHexDigits(v);
    var c := "#" + SliceLast("00000" + ToBase(v, 16), 6);
    assert c[1..] == SliceLast("00000" + ToBase(v, 16), 6);
    c
  }

  lemma SpectrumBelowWhite(s: nat)
    requires s <= LastSecond
    ensures s * 0xFFFFFF / LastSecond <= 0xFFFFFF
  {
    MulLe(s, LastSecond, 0xFFFFFF);
  }

  /** `('00000' + v.toString(16)).slice(-6)` writes a 24-bit value in six
      hex digits that read back as the value. */
  lemma SixHexDigits(v: nat)
    requires v <= 0xFFFFFF
    ensures var d := SliceLast("00000" + ToBase(v, 16), 6);
      |d| == 6 && AllDigits(d, 16) && ValueOf(d, 16) == v
  {
    PowersOf16();
    FiveZeros();
    PadToWidth(v, 16, 6);
  }

  lemma PowersOf16()
    ensures Pow(16, 2) == 0x100 && Pow(16, 4) == 0x10000
    ensures Pow(16, 6) == 0x1000000 && Pow(16, 7) == 0x10000000
  {
    assert Pow(16, 2) == 0x100;
    assert Pow(16, 4) == 16 * (16 * Pow(16, 2));
    assert Pow(16, 6) == 16 * (16 * Pow(16, 4));
    assert Pow(16, 7) == 16 * Pow(16, 6);
  }

  lemma FiveZeros()
    ensures Zeros(5) == "00000"
  {
  }

  /** `rgbToHex`: the channels packed below a leading 1 bit at 2^24, written
      in hex, with the leading '1' dropped by `slice(1)`. */
  function RgbToHex(r: Byte, g: Byte, b: Byte): (c: string)
    ensures IsColour(c)
    ensures ColourValue(c) == r * 0x10000 + g * 0x100 + b
    ensures AllDigits(c[1..3], 16) && AllDigits(c[3..5], 16) && AllDigits(c[5..7], 16)
    ensures ValueOf(c[1..3], 16) == r && ValueOf(c[3..5], 16) == g && ValueOf(c[5..7], 16) == b
  {
    var packed := 0x1000000 + r * 0x10000 + g * 0x100 + b;
    var d := SliceFrom1(ToBase(packed, 16));
    RgbDigits(r, g, b);
    var c := "#" + d;
    assert c[1..] == d && c[1..3] == d[0..2] && c[3..5] == d[2..4] && c[5..7] == d[4..6];
    c
  }

  lemma RgbDigits(r: Byte, g: Byte, b: Byte)
    ensures var packed := 0x1000000 + r * 0x10000 + g * 0x100 + b;
      var d := SliceFrom1(ToBase(packed, 16));
      && |d| == 6 && AllDigits(d, 16)
      && ValueOf(d, 16) == r * 0x10000 + g * 0x100 + b
      && ValueOf(d[0..2], 16) == r && ValueOf(d[2..4], 16) == g && ValueOf(d[4..6], 16) == b
  {
    var x := r * 0x10000 + g * 0x100 + b;
    var packed := 0x1000000 + x;
    var h := ToBase(packed, 16);
    PowersOf16();
    ToBaseAtLeast(packed, 16, 7);
    ToBaseAtMost(packed, 16, 7);
    var d := SliceFrom1(h);
    assert d == h[1..];
    ValueOfToBase(packed, 16);
    ValueOfSplit(h, 1, 16);
    ValueOfBelow(h[..1], 16);
    ValueOfBelow(d, 16);
    assert ValueOf(d, 16) == x;
    ValueOfSplit(d, 2, 16);
    ValueOfSplit(d[2..], 2, 16);
    assert d[..2] == d[0..2] && d[2..][..2] == d[2..4] && d[2..][2..] == d[4..6];
    var v1, v2, v3 := ValueOf(d[0..2], 16), ValueOf(d[2..4], 16), ValueOf(d[4..6], 16);
    ValueOfBelow(d[0..2], 16);
    ValueOfBelow(d[2..4], 16);
    ValueOfBelow(d[4..6], 16);
    assert x == v1 * 65536 + v2 * 256 + v3;
    assert v1 == r;
    assert v2 == g;
  }

  // ---------------------------------------------------------------------
  // Properties

  /** The documented end points: midnight is black ... */
  lemma SecondToHexColourBlack()
    ensures SecondToHexColour(0) == "#000000"
  {
    assert 0 * 0xFFFFFF / LastSecond == 0;
    assert ToBase(0, 16) == "0";
    assert SliceLast("00000" + "0", 6) == "000000";
  }

  /** ... and 23:59:59 is white. */
  lemma SecondToHexColourWhite()
    ensures SecondToHexColour(LastSecond) == "#ffffff"
  {
    assert LastSecond * 0xFFFFFF / LastSecond == 0xFFFFFF;
    HexOfWhite();
    assert SliceLast("00000" + "ffffff", 6) == "ffffff";
  }

  lemma HexOfWhite()
    ensures ToBase(0xFFFFFF, 16) == "ffffff"
  {
    assert ToBase(0xF, 16) == "f";
    assert ToBase(0xFF, 16) == ToBase(0xF, 16) + "f" == "ff";
    assert ToBase(0xFFF, 16) == ToBase(0xFF, 16) + "f" == "fff";
    assert ToBase(0xFFFF, 16) == ToBase(0xFFF, 16) + "f" == "ffff";
    assert ToBase(0xFFFFF, 16) == ToBase(0xFFFF, 16) + "f" == "fffff";
    assert ToBase(0xFFFFFF, 16) == ToBase(0xFFFFF, 16) + "f" == "ffffff";
  }

  /** A later second never gets a smaller colour value. */
  lemma SecondToHexColourMonotone(s1: nat, s2: nat)
    requires s1 <= s2 <= LastSecond
    ensures ColourValue(SecondToHexColour(s1)) <= ColourValue(SecondToHexColour(s2))
  {
    MulLe(s1, s2, 0xFFFFFF);
    DivLe(s1 * 0xFFFFFF, s2 * 0xFFFFFF, LastSecond);
  }


  /** Why the exact quotient models the source's double arithmetic: 86399 and
      0xFFFFFF are coprime (0xFFFFFF * 10280 = 1 + 86399 * 1996201), so
      s * 0xFFFFFF / 86399 is a whole number only at the two end points, and
      everywhere else lies at least 1/86399 away from the next integer, far
      more than the rounding error of the division and multiplication in
      doubles. Truncating the double therefore gives the exact floor. */
  lemma {:induction false} SpectrumExactOnlyAtEnds(s: nat)
    requires 0 < s < LastSecond
    ensures (s * 0xFFFFFF) % LastSecond != 0
  {
    var n := s * 0xFFFFFF;
    CoprimeCancel(s, n / LastSecond);
    assert n == n / LastSecond * LastSecond + n % LastSecond;
  }

  /** 0xFFFFFF has the inverse 10280 modulo 86399, so a multiple of 86399
      that is `s` times 0xFFFFFF forces `s` itself to be a multiple. */
  lemma CoprimeCancel(s: nat, k: nat)
    ensures s * 0xFFFFFF == LastSecond * k ==> s % LastSecond == 0
  {
    if s * 0xFFFFFF == LastSecond * k {
      calc {
        s;
        s * (0xFFFFFF * 10280 - LastSecond * 1996201);
        s * 0xFFFFFF * 10280 - LastSecond * (s * 1996201);
        LastSecond * k * 10280 - LastSecond * (s * 1996201);
        LastSecond * (k * 10280 - s * 1996201);
      }
      MultipleHasNoRemainder(s, k * 10280 - s * 1996201);
    }
  }

  lemma MultipleHasNoRemainder(s: nat, m: int)
    requires s == LastSecond * m
    ensures s % LastSecond == 0
  {
    assert m >= 0;
    assert s == m * LastSecond + 0;
  }
}

=== FILE: options.dfy ===
/** The optional value used across the model: JavaScript's `undefined`,
    `NaN` or "nothing written" on one side, a value on the other. */
module Options {

  datatype Option<+T> = None | Some(value: T)
}

=== FILE: panels.dfy ===
/** The side panel of the new-tab page (`togglePanel` in js/colours.js): at
    most one panel is shown, and the id of the shown panel, or -1 for none,
    is saved to synced storage and replayed when the page next loads. */
module Panels {
  import opened Options

  /** The id meaning "no panel", on the page and in storage alike. */
  const NoPanel: int := -1

  /** The panel shown after a toggle and the value written to storage, if any. */
  datatype Toggled = Toggled(shown: int, saved: Option<int>)

  /** `togglePanel(id)` on a page showing panel `shown` (NoPanel for none). */
  function TogglePanel(shown: int, id: int): (r: Toggled)
    ensures id == NoPanel ==> r == Toggled(shown, None)
    ensures id != NoPanel ==> r.saved == Some(r.shown)
    ensures id != NoPanel ==> (r.shown == NoPanel <==> shown == id)
    ensures id != NoPanel && shown != id ==> r.shown == id
  {
    if id == NoPanel then Toggled(shown, None)
    else if shown == id then Toggled(NoPanel, Some(NoPanel))
    else Toggled(id, Some(id))
  }

  /** Loading the page: nothing is shown yet and the stored id is toggled. */
  function Restore(stored: int): (r: Toggled)
    ensures r.shown == stored
    ensures r.saved.None? <==> stored == NoPanel
    ensures r.saved.Some? ==> r.saved == Some(stored)
  {
    TogglePanel(NoPanel, stored)
  }

  // ---------------------------------------------------------------------
  // Properties

  /** Clicking the same panel's toggle twice from a page showing no panel,
      or showing another one, ends with no panel shown and -1 saved. */
  lemma ToggleTwiceHides(shown: int, id: int)
    requires id != NoPanel && shown != id
    ensures TogglePanel(TogglePanel(shown, id).shown, id) == Toggled(NoPanel, Some(NoPanel))
  {
  }

  /** What a toggle saves brings the same panel back after a reload. */
  lemma RestoreAfterToggle(shown: int, id: int)
    requires TogglePanel(shown, id).saved.Some?
    ensures Restore(TogglePanel(shown, id).saved.value).shown == TogglePanel(shown, id).shown
  {
  }
}

=== FILE: radix.dfy ===
/** Digit strings in a radix between 2 and 16, written the way JavaScript's
    `Number.prototype.toString(radix)` writes them (lower-case letters, no
    leading zeros), together with the small string operations the page code
    uses on them: `slice(-k)`, `slice(1)` and `parseInt(s, 10)`. */
module Radix {
  import opened Options

  /** The character for digit `d`: '0'..'9' then 'a'..'f'. */
  function Digit(d: nat): (c: char)
    requires d < 16
    ensures DigitValue(c) == d
  {
    if d < 10 then ('0' as int + d) as char else ('a' as int + (d - 10)) as char
  }

  /** The value of a lower-case digit character, and 16 for any other character. */
  function DigitValue(c: char): (d: nat)
    ensures d <= 16
  {
    if '0' <= c <= '9' then c as int - '0' as int
    else if 'a' <= c <= 'f' then c as int - 'a' as int + 10
    else 16
  }

  predicate IsDigit(c: char, base: nat) {
    DigitValue(c) < base
  }

  predicate AllDigits(s: string, base: nat) {
    forall i :: 0 <= i < |s| ==> IsDigit(s[i], base)
  }

  function Pow(b: nat, k: nat): (p: nat)
    ensures b >= 1 ==> p >= 1
  {
    if k == 0 then 1 else b * Pow(b, k - 1)
  }

  /** The number a digit string denotes, most significant digit first. */
  function ValueOf(s: string, base: nat): nat
    requires AllDigits(s, base)
  {
    if |s| == 0 then 0 else ValueOf(s[..|s| - 1], base) * base + DigitValue(s[|s| - 1])
  }

  /** `n.toString(base)` for a non-negative integer: its shortest digit string
      ("0" for zero). */
  function ToBase(n: nat, base: nat): (s: string)
    requires 2 <= base <= 16
    ensures |s| >= 1 && AllDigits(s, base)
    ensures n == 0 ==> s == "0"
    ensures n > 0 ==> DigitValue(s[0]) != 0
    decreases n
  {
    DivModFacts(n, base);
    if n < base then [Digit(n)] else ToBase(n / base, base) + [Digit(n % base)]
  }

  /** A run of `k` zero digits. */
  function Zeros(k: nat): (s: string)
    ensures |s| == k && forall i :: 0 <= i < k ==> s[i] == '0'
  {
    if k == 0 then [] else Zeros(k - 1) + "0"
  }

  /** `s.slice(-k)` for k >= 1: the last `k` characters, or all of `s` when it is shorter. */
  function SliceLast(s: string, k: nat): (r: string)
    requires k >= 1
    ensures |r| == if |s| < k then |s| else k
    ensures r == s[|s| - |r|..]
  {
    if |s| < k then s else s[|s| - k..]
  }

  /** `s.slice(1)`: everything after the first character ("" for ""). */
  function SliceFrom1(s: string): (r: string)
    ensures |s| >= 1 ==> s == s[..1] + r
    ensures |s| == 0 ==> r == ""
  {
    if |s| >= 1 then s[1..] else ""
  }

  /** The longest prefix of `s` made of decimal digits. */
  function LeadingDecimal(s: string): (p: string)
    ensures |p| <= |s| && p == s[..|p|] && AllDigits(p, 10)
    ensures |p| < |s| ==> !IsDigit(s[|p|], 10)
  {
    if |s| == 0 || !IsDigit(s[0], 10) then [] else [s[0]] + LeadingDecimal(s[1..])
  }

  /** `parseInt(s, 10)` on a string that starts with its digits: the value of
      the leading decimal digits, or None (NaN) when there are none. */
  function ParseInt(s: string): (r: Option<nat>)
    ensures r.None? <==> |s| == 0 || !IsDigit(s[0], 10)
    ensures |s| >= 1 && AllDigits(s, 10) ==> r == Some(ValueOf(s, 10))
  {
    var p := LeadingDecimal(s);
    assert AllDigits(s, 10) ==> p == s;
    if |p| == 0 then None else Some(ValueOf(p, 10))
  }

  // ---------------------------------------------------------------------
  // Arithmetic on digit strings

  /** Euclidean division by a radix: quotient and remainder recompose `n`,
      and the quotient is smaller than `n` exactly when `n` has two digits or more. */
  lemma DivModFacts(n: nat, base: nat)
    requires 2 <= base
    ensures n == n / base * base + n % base && n % base < base
    ensures n < base ==> n / base == 0 && n % base == n
    ensures n >= base ==> 1 <= n / base < n
  {
    if n >= base {
      var q := n / base;
      assert q * base == n - n % base > 0;
      assert q >= 1;
      MulLe(2, base, q);
    }
  }

  lemma MulLe(a: nat, c: nat, b: nat)
    requires a <= c
    ensures a * b <= c * b
  {
  }

  lemma DivLe(a: nat, c: nat, d: nat)
    requires a <= c && d >= 2
    ensures a / d <= c / d
  {
    DivModFacts(a, d);
    DivAtLeast(c, d, a / d);
  }

  lemma MulSucc(v: nat, b: nat)
    ensures (v + 1) * b == v * b + b
  {
  }

  lemma ShiftDistributes(a: nat, p: nat, v: nat, b: nat)
    ensures (a * p + v) * b == a * (b * p) + v * b
  {
    calc {
      (a * p + v) * b;
      a * p * b + v * b;
      a * (b * p) + v * b;
    }
  }

  /** The quotient by `b` of a number below `b * p` is below `p`. */
  lemma DivBelow(n: nat, b: nat, p: nat)
    requires b >= 1 && n < b * p
    ensures n / b < p
  {
    var q := n / b;
    assert q * b <= n;
    if p <= q {
      MulLe(p, q, b);
    }
  }

  /** The quotient by `b` of a number of at least `b * p` is at least `p`. */
  lemma DivAtLeast(n: nat, b: nat, p: nat)
    requires b >= 1 && n >= b * p
    ensures n / b >= p
  {
    var q := n / b;
    assert n < q * b + b;
    if q + 1 <= p {
      MulLe(q + 1, p, b);
    }
  }

  /** Reading back what `ToBase` wrote gives the number again. */
  lemma {:induction false} ValueOfToBase(n: nat, base: nat)
    requires 2 <= base <= 16
    ensures ValueOf(ToBase(n, base), base) == n
    decreases n
  {
    var s := ToBase(n, base);
    DivModFacts(n, base);
    if n < base {
      assert s[..0] == [];
    } else {
      ValueOfToBase(n / base, base);
      assert s[..|s| - 1] == ToBase(n / base, base);
    }
  }

  /** A number below base^w needs at most w digits. */
  lemma {:induction false} ToBaseAtMost(n: nat, base: nat, w: nat)
    requires 2 <= base <= 16 && w >= 1 && n < Pow(base, w)
    ensures |ToBase(n, base)| <= w
    decreases n
  {
    if n >= base {
      assert Pow(base, 1) == base;
      assert w != 1;
      var p := Pow(base, w - 1);
      assert Pow(base, w) == base * p;
      DivBelow(n, base, p);
      DivModFacts(n, base);
      ToBaseAtMost(n / base, base, w - 1);
      assert ToBase(n, base) == ToBase(n / base, base) + [Digit(n % base)];
    }
  }

  /** A number of at least base^(w-1) needs at least w digits. */
  lemma {:induction false} ToBaseAtLeast(n: nat, base: nat, w: nat)
    requires 2 <= base <= 16 && w >= 1 && n >= Pow(base, w - 1)
    ensures |ToBase(n, base)| >= w
    decreases n
  {
    if w > 1 {
      var p := Pow(base, w - 2);
      assert Pow(base, w - 1) == base * p;
      MulLe(1, p, base);
      assert n >= base;
      DivAtLeast(n, base, p);
      DivModFacts(n, base);
      ToBaseAtLeast(n / base, base, w - 1);
      assert ToBase(n, base) == ToBase(n / base, base) + [Digit(n % base)];
    }
  }

  /** Leading zeros do not change a digit string's value. */
  lemma {:induction false} ValueOfZerosPrefix(k: nat, s: string, base: nat)
    requires 2 <= base <= 16 && AllDigits(s, base)
    ensures AllDigits(Zeros(k) + s, base)
    ensures ValueOf(Zeros(k) + s, base) == ValueOf(s, base)
    decreases |s|
  {
    var z := Zeros(k) + s;
    if |s| == 0 {
      assert z == Zeros(k);
      ValueOfZeros(k, base);
    } else {
      assert z[..|z| - 1] == Zeros(k) + s[..|s| - 1];
      ValueOfZerosPrefix(k, s[..|s| - 1], base);
    }
  }

  lemma {:induction false} ValueOfZeros(k: nat, base: nat)
    requires 2 <= base <= 16
    ensures AllDigits(Zeros(k), base) && ValueOf(Zeros(k), base) == 0
  {
    if k > 0 {
      ValueOfZeros(k - 1, base);
      assert Zeros(k)[..k - 1] == Zeros(k - 1);
    }
  }

  /** The value of a concatenation: the left part shifted by the right part's width. */
  lemma {:induction false} ValueOfAppend(s: string, t: string, base: nat)
    requires 2 <= base <= 16 && AllDigits(s, base) && AllDigits(t, base)
    ensures AllDigits(s + t, base)
    ensures ValueOf(s + t, base) == ValueOf(s, base) * Pow(base, |t|) + ValueOf(t, base)
    decreases |t|
  {
    var st := s + t;
    if |t| > 0 {
      var t' := t[..|t| - 1];
      var d := DigitValue(t[|t| - 1]);
      assert st[..|st| - 1] == s + t';
      assert st[|st| - 1] == t[|t| - 1];
      ValueOfAppend(s, t', base);
      var a := ValueOf(s, base);
      var p := Pow(base, |t'|);
      var v := ValueOf(t', base);
      assert ValueOf(st, base) == ValueOf(s + t', base) * base + d;
      assert ValueOf(t, base) == v * base + d;
      assert Pow(base, |t|) == base * p;
      ShiftDistributes(a, p, v, base);
    } else {
      assert st == s;
    }
  }

  /** A digit string of width w denotes a number below base^w. */
  lemma {:induction false} ValueOfBelow(s: string, base: nat)
    requires 2 <= base <= 16 && AllDigits(s, base)
    ensures ValueOf(s, base) < Pow(base, |s|)
    decreases |s|
  {
    if |s| > 0 {
      var init := s[..|s| - 1];
      ValueOfBelow(init, base);
      var v := ValueOf(init, base);
      var d := DigitValue(s[|s| - 1]);
      var p := Pow(base, |init|);
      assert ValueOf(s, base) == v * base + d;
      assert Pow(base, |s|) == base * p;
      MulLe(v + 1, p, base);
      assert (v + 1) * base <= p * base;
      MulSucc(v, base);
      assert p * base == base * p;
      assert v * base + d < v * base + base;
    }
  }

  /** Splitting a digit string at `k`: the head shifted by the tail's width. */
  lemma ValueOfSplit(s: string, k: nat, base: nat)
    requires 2 <= base <= 16 && AllDigits(s, base) && k <= |s|
    ensures AllDigits(s[..k], base) && AllDigits(s[k..], base)
    ensures ValueOf(s, base) == ValueOf(s[..k], base) * Pow(base, |s| - k) + ValueOf(s[k..], base)
  {
    assert s == s[..k] + s[k..];
    ValueOfAppend(s[..k], s[k..], base);
  }

  /** `(zeros + n.toString(base)).slice(-w)` with w - 1 zeros is n written in
      exactly w digits, for every n below base^w. */
  lemma PadToWidth(n: nat, base: nat, w: nat)
    requires 2 <= base <= 16 && w >= 1 && n < Pow(base, w)
    ensures var p := SliceLast(Zeros(w - 1) + ToBase(n, base), w);
      |p| == w && AllDigits(p, base) && ValueOf(p, base) == n
  {
    var h := ToBase(n, base);
    ToBaseAtMost(n, base, w);
    ZerosThenDigits(w, h);
    ValueOfToBase(n, base);
    ValueOfZerosPrefix(w - |h|, h, base);
  }

  lemma ZerosThenDigits(w: nat, h: string)
    requires 1 <= |h| <= w
    ensures SliceLast(Zeros(w - 1) + h, w) == Zeros(w - |h|) + h
  {
    var a, b := Zeros(|h| - 1), Zeros(w - |h|);
    assert Zeros(w - 1) == a + b;
    assert Zeros(w - 1) + h == a + (b + h);
  }
}

=== FILE: tick.dfy ===
/** One run of `doTime` in js/colours.js: the configuration flags resolved to
    a single display mode, the colour of the second, what is handed to the
    history stack, and the text of the clock. */
module Tick {
  import opened Options
  import opened Radix
  import opened Clock
  import opened Colours

  /** The options `doTime` reads: '24-hour-time', 'time_full',
      'time_full_hue', 'time_solid' and 'history'. */
  datatype Config = Config(twentyFour: bool, full: bool, fullHue: bool, solid: bool, history: bool)

  /** The four ways of colouring the page, one per strategy. */
  datatype Mode = Literal | FullSpectrum | FullSpectrumHue | Solid

  /** The mode the flags select: solid short-circuits everything; otherwise
      the hue colour, assigned last, overrides the linear one, which
      overrides the literal colour. */
  function ModeOf(c: Config): (m: Mode)
    ensures m == Solid <==> c.solid
    ensures m == FullSpectrumHue <==> !c.solid && c.fullHue
    ensures m == FullSpectrum <==> !c.solid && !c.fullHue && c.full
    ensures m == Literal <==> !c.solid && !c.fullHue && !c.full
  {
    if c.solid then Solid
    else if c.fullHue then FullSpectrumHue
    else if c.full then FullSpectrum
    else Literal
  }

  datatype Rgb = Rgb(r: Byte, g: Byte, b: Byte)

  /** The integer channels `rgbToHex` ends up packing for
      `hslToRgb(s / 86400, 1, 0.5)` at second `s`: r and g truncated by `<<`,
      b rounded into the double sum and then truncated by `| 0`. The
      conversion is floating point and is supplied by the caller. */
  type HueChannels = nat -> Rgb

  /** `secondToHueColour`: the hue channels packed by `rgbToHex`. */
  function HueColour(hue: HueChannels, s: nat): (c: string)
    ensures IsColour(c)
    ensures ValueOf(c[1..3], 16) == hue(s).r && ValueOf(c[3..5], 16) == hue(s).g
    ensures ValueOf(c[5..7], 16) == hue(s).b
  {
    var rgb := hue(s);
    RgbToHex(rgb.r, rgb.g, rgb.b)
  }

  /** The "what colour is it?" colour: '#' and the displayed digits. */
  function LiteralColour(f: Face): string {
    "#" + f.hh + f.mm + f.ss
  }

  /** The literal colour is '#' and six decimal digits, two per displayed field. */
  lemma LiteralColourDigits(t: TimeOfDay, twentyFour: bool)
    requires Valid(t)
    ensures var c := LiteralColour(Display(t, twentyFour));
      && IsColour(c) && AllDigits(c[1..], 10)
      && ParseInt(c[1..3]) == Some(DisplayHour(t.hours, twentyFour))
      && ParseInt(c[3..5]) == Some(t.mins)
      && ParseInt(c[5..7]) == Some(t.secs)
  {
    var f := Display(t, twentyFour);
    var c := LiteralColour(f);
    assert c[1..3] == f.hh && c[3..5] == f.mm && c[5..7] == f.ss;
    assert c[1..] == f.hh + f.mm + f.ss;
  }

  /** The seconds of the day the colour code re-reads from the displayed
      fields: the displayed hour, not the 24-hour one. */
  function ReparsedSeconds(t: TimeOfDay, twentyFour: bool): (s: nat)
    requires Valid(t)
    ensures s == DisplaySeconds(t, twentyFour) <= LastSecond
    ensures !twentyFour ==> s <= 46799
  {
    FaceSecondsReadsDisplay(t, twentyFour);
    DisplaySecondsBounds(t, twentyFour);
    FaceSeconds(Display(t, twentyFour)).value
  }

  /** The colour of one second under one mode; None in solid mode, where no
      colour is computed. */
  function ComputeColour(mode: Mode, t: TimeOfDay, twentyFour: bool, hue: HueChannels): (r: Option<string>)
    requires Valid(t)
    ensures r.None? <==> mode == Solid
    ensures r.Some? ==> IsColour(r.value)
    ensures mode == Literal ==>
      && AllDigits(r.value[1..], 10)
      && ParseInt(r.value[1..3]) == Some(DisplayHour(t.hours, twentyFour))
      && ParseInt(r.value[3..5]) == Some(t.mins)
      && ParseInt(r.value[5..7]) == Some(t.secs)
    ensures mode == FullSpectrum ==>
      ColourValue(r.value) == DisplaySeconds(t, twentyFour) * 0xFFFFFF / LastSecond
    ensures mode == FullSpectrumHue ==> r == Some(HueColour(hue, DisplaySeconds(t, twentyFour)))
  {
    match mode
    case Solid => None
    case Literal =>
      LiteralColourDigits(t, twentyFour);
      Some(LiteralColour(Display(t, twentyFour)))
    case FullSpectrum =>
      var s := ReparsedSeconds(t, twentyFour);
      Some(SecondToHexColour(s))
    case FullSpectrumHue =>
      var s := ReparsedSeconds(t, twentyFour);
      Some(HueColour(hue, s))
  }

  /** The colour branch of `doTime` as written: the literal colour first,
      overwritten by the linear colour when 'time_full' is set and then by
      the hue colour when 'time_full_hue' is set; nothing in solid mode.
      Its result is the colour of the mode the flags select. */
  method CascadeColour(cfg: Config, t: TimeOfDay, hue: HueChannels) returns (hex: Option<string>)
    requires Valid(t)
    ensures hex == ComputeColour(ModeOf(cfg), t, cfg.twentyFour, hue)
  {
    if cfg.solid {
      return None;
    }
    var f := Display(t, cfg.twentyFour);
    var h := LiteralColour(f);
    if cfg.full {
      var seconds := ReparsedSeconds(t, cfg.twentyFour);
      h := SecondToHexColour(seconds);
    }
    if cfg.fullHue {
      var seconds := ReparsedSeconds(t, cfg.twentyFour);
      h := HueColour(hue, seconds);
    }
    hex := Some(h);
  }

  /** What one tick produces: the clock text, the AM/PM postfix, the colour
      shown (None when solid mode leaves the page alone) and the colour
      pushed onto the history stack (None when nothing is pushed). */
  datatype Frame = Frame(text: string, postfix: Option<string>, colour: Option<string>, pushed: Option<string>)

  /** The clock text holds the three fields at fixed offsets, and the
      literal colour is '#' followed by those same three slices. */
  lemma ClockTextSlices(f: Face)
    requires |f.hh| == 2 && |f.mm| == 2 && |f.ss| == 2
    ensures var text := ClockText(f);
      && |text| == 12 && text[2..5] == " : " && text[7..10] == " : "
      && text[0..2] == f.hh && text[5..7] == f.mm && text[10..12] == f.ss
      && LiteralColour(f) == "#" + text[0..2] + text[5..7] + text[10..12]
  {
    var text := ClockText(f);
    assert text[0..2] == f.hh && text[5..7] == f.mm && text[10..12] == f.ss;
  }

  /** `doTime`: the clock text and AM/PM postfix of the displayed face, the
      colour of the selected mode, and that same colour pushed onto the
      history stack when history is on. */
  function DoTime(cfg: Config, t: TimeOfDay, hue: HueChannels): (fr: Frame)
    requires Valid(t)
    ensures fr.colour.None? <==> cfg.solid
    ensures fr.colour.Some? ==> IsColour(fr.colour.value)
    ensures fr.pushed.Some? <==> !cfg.solid && cfg.history
    ensures fr.pushed.Some? ==> fr.pushed == fr.colour
    ensures fr.postfix.None? <==> cfg.twentyFour
    ensures !cfg.twentyFour ==> fr.postfix == Some(if t.hours >= 12 then "PM" else "AM")
    ensures |fr.text| == 12 && fr.text[2..5] == " : " && fr.text[7..10] == " : "
    ensures AllDigits(fr.text[0..2], 10) && AllDigits(fr.text[5..7], 10) && AllDigits(fr.text[10..12], 10)
    ensures ValueOf(fr.text[0..2], 10) == DisplayHour(t.hours, cfg.twentyFour)
    ensures ValueOf(fr.text[5..7], 10) == t.mins && ValueOf(fr.text[10..12], 10) == t.secs
    ensures ModeOf(cfg) == Literal ==>
      fr.colour.value == "#" + fr.text[0..2] + fr.text[5..7] + fr.text[10..12]
    ensures ModeOf(cfg) == FullSpectrum ==>
      ColourValue(fr.colour.value) == DisplaySeconds(t, cfg.twentyFour) * 0xFFFFFF / LastSecond
    ensures ModeOf(cfg) == FullSpectrumHue ==>
      fr.colour == Some(HueColour(hue, DisplaySeconds(t, cfg.twentyFour)))
  {
    var f := Display(t, cfg.twentyFour);
    var colour := ComputeColour(ModeOf(cfg), t, cfg.twentyFour, hue);
    ClockTextSlices(f);
    Frame(ClockText(f), Postfix(f), colour,
          if colour.Some? && cfg.history then colour else None)
  }

  // ---------------------------------------------------------------------
  // Properties

  /** With both spectrum flags set the hue colour is the one shown, and the
      linear flag makes no difference. */
  lemma HueWins(cfg: Config, t: TimeOfDay, hue: HueChannels)
    requires Valid(t) && !cfg.solid && cfg.fullHue
    ensures DoTime(cfg, t, hue).colour == Some(HueColour(hue, DisplaySeconds(t, cfg.twentyFour)))
    ensures DoTime(cfg, t, hue) == DoTime(cfg.(full := !cfg.full), t, hue)
  {
  }

  /** The faces of 14:05:09 on both clocks. */
  lemma ExampleFaces()
    ensures Display(TimeOfDay(14, 5, 9), true) == Face("14", "05", "09", true, true)
    ensures Display(TimeOfDay(14, 5, 9), false) == Face("02", "05", "09", true, false)
  {
    assert PadTwo(14) == "14" by { assert ToBase(14, 10) == "14"; }
    assert PadTwo(2) == "02" by { assert ToBase(2, 10) == "2"; }
    assert PadTwo(5) == "05" by { assert ToBase(5, 10) == "5"; }
    assert PadTwo(9) == "09" by { assert ToBase(9, 10) == "9"; }
    assert DisplayHour(14, false) == 2;
  }

  /** 14:05:09 is "#140509" on a 24-hour clock and "#020509" on a 12-hour
      clock, whose text then reads "02 : 05 : 09" with postfix "PM". */
  lemma LiteralExample(hue: HueChannels)
    ensures ComputeColour(Literal, TimeOfDay(14, 5, 9), true, hue) == Some("#140509")
    ensures ComputeColour(Literal, TimeOfDay(14, 5, 9), false, hue) == Some("#020509")
    ensures DoTime(Config(false, false, false, false, false), TimeOfDay(14, 5, 9), hue)
         == Frame("02 : 05 : 09", Some("PM"), Some("#020509"), None)
  {
    ExampleFaces();
    assert LiteralColour(Face("14", "05", "09", true, true)) == "#140509";
    assert LiteralColour(Face("02", "05", "09", true, false)) == "#020509";
    assert ClockText(Face("02", "05", "09", true, false)) == "02 : 05 : 09";
  }

  /** On a 12-hour clock a morning second and the second twelve hours later
      get the same colour in every mode. */
  lemma TwelveHourColoursAlias(mode: Mode, t: TimeOfDay, hue: HueChannels)
    requires Valid(t) && t.hours < 12
    ensures var later := TimeOfDay(t.hours + 12, t.mins, t.secs);
      ComputeColour(mode, t, false, hue) == ComputeColour(mode, later, false, hue)
  {
    var later := TimeOfDay(t.hours + 12, t.mins, t.secs);
    assert DisplayHour(t.hours, false) == DisplayHour(later.hours, false);
    assert LiteralColour(Display(t, false)) == LiteralColour(Display(later, false));
    assert ReparsedSeconds(t, false) == ReparsedSeconds(later, false);
  }
}
